=== FILE: README.md ===
# Access-code bot: authorization ranges and code lookup

The bot answers a Telegram user with the addresses and access codes of the
objects they may see. It reads a Google sheet. The row whose ДОСТУП column
holds the user's id names the objects in its ИНФОРМАЦИЯ column, as an
expression like `1-5,7,10-12`. Rows with an integer in the ID column make up
the catalog of objects, each with an Адрес (address) and a Код (code).

This project models the two pieces of `bot.py` that decide anything:

- `parse_id_ranges` (module `Ranges`): the authorization expression becomes the
  ascending, duplicate-free list of ids it names. `ParseIdRanges` is the loop
  of the source, proved against the set `IdSet`. The lemmas say which ids that
  set holds.
- The lookup inside `fetch_user_data`, with the sheet fetch replaced by a
  sequence of rows (module `Lookup`). The answer is one of these:
  - `NoAccess`;
  - `NoData`;
  - `Unrecognised`;
  - `Entries`, holding one `Found(address, code)` or `Missing(id)` per id;
  - `NoObjects`, which the source has but never reaches.

  `FetchUserData` runs the source's three loops: find the row, build the
  catalog, assemble the entries. It is proved equal to the specification
  `Respond`, and the lemmas say what `Respond` answers.

Supporting modules: `Text` models Python's `str.strip()`, `str.split(sep)` and a
simplified `int()`. `SortedSet` models `sorted()` applied to a set of
integers. `RangeExamples` works through concrete expressions.

A row is a map from column name to the cell as `str()` renders it, so
`row.get(k, "")` is `Cell`. A missing `ID` column is the source's `KeyError`
and a non-integer ID is its `ValueError`; both skip the row. `ParseDecimal`
shows that an integer cell rendered by `str()` reads back as the same integer.

Two details of `bot.py` shape the reply:
- An authorized id that no row carries is answered with "object not found"
  (bot.py:117-118); the model gives `Missing(id)` for it.
- Only the Адрес and Код cells of an object are kept, each `""` when the
  column is absent (bot.py:105-106).

## Model

| member | source | states |
|---|---|---|
| Text.IsSpace | bot.py:53 | Python's `str.isspace()`: the characters `strip()` removes (bot.py:53, 84, 92) and `int()` skips around its digits (bot.py:58, 66, 103), namely code points 9-13, 0x1C-0x20, 0x85, 0xA0, 0x1680, 0x2000-0x200A, 0x2028, 0x2029, 0x202F, 0x205F and 0x3000 |
| Text.Strip | bot.py:53 | `str.strip()` on a segment; the same function trims the ДОСТУП cell (bot.py:84) and the ИНФОРМАЦИЯ cell (bot.py:92). `StripFacts` states what it returns |
| Text.StripFacts | bot.py:53 | `strip()` returns a contiguous middle part of the input with only whitespace cut from each end; it leaves no whitespace at either end, and it gives the empty string exactly for all-whitespace input |
| Text.Split | bot.py:51 | `str.split(sep)`, used on `","` at bot.py:51 and on `"-"` at bot.py:58: one piece more than there are separators, no piece holds the separator, and every piece's characters come from the input |
| Text.JoinSplit | bot.py:51 | `split(",")` loses nothing: joining the pieces with the separator gives back the input |
| Text.SplitAtOnly | bot.py:58 | a string with exactly one hyphen splits into the text before it and the text after it |
| Text.ParseInt | bot.py:66 | `int()` of a string that has no `-` is never negative |
| Text.Decimal | bot.py:103 | `str(n)` for a natural `n`: the decimal rendering of an integer cell, at least one ASCII digit and digits only |
| Text.ParseDecimal | bot.py:103 | `int(str(n)) == n` for every natural `n`, so a numeric ID cell reads back as its own value (CPython's 4300-digit limit on `int()` is not modelled, see below) |
| Text.ParseNegativeDecimal | bot.py:103 | `int("-" + str(n)) == -n`: a negative ID cell reads back too |
| SortedSet.SortedElements | bot.py:70 | `sorted(ids)` is strictly ascending, holds exactly the members of the set, and has one element per member |
| SortedSet.SortedUnique | bot.py:70 | two strictly ascending lists with the same members are equal, so `sorted` of a set has only one possible result |
| SortedSet.Sorted | bot.py:70 | the selection loop returns the strictly ascending list of exactly the set's members, which is `SortedElements` of the set |
| Ranges.Interval | bot.py:59-60 | `range(start, end + 1)` holds exactly `start..end` and is empty when `start > end` |
| Ranges.RangeIds | bot.py:56-63 | a trimmed segment with a hyphen: exactly two halves that are both integers give `range(start, end + 1)`, anything else is skipped; `RangeMembership` states it without `Split` |
| Ranges.SegmentIds | bot.py:53-69 | one comma segment's contribution: nothing if blank, `RangeIds` if it holds a hyphen, else `int(part)` or nothing when that fails; `SegmentMembership` states it |
| Ranges.UnionOf | bot.py:52-69 | the loop's accumulation over segments, as the union of each segment's ids; `UnionMembership` states it |
| Ranges.IdSet | bot.py:51-69 | the set `ids` holds after the loop over `range_str.split(",")`; `ParseMembership` states it |
| Ranges.RangeMembership | bot.py:56-63 | a hyphenated segment covers `x` iff it is `a-b` with exactly one hyphen, both halves are integers, and `a <= x <= b` |
| Ranges.TwoHalves | bot.py:58 | a hyphenated segment unpacks into two halves iff it holds no other hyphen, and the halves are the text on either side |
| Ranges.SegmentMembership | bot.py:53-69 | a trimmed segment contributes `x` iff it has no hyphen and reads as `x`, or it is a range `a-b` with one hyphen and `a <= x <= b` |
| Ranges.UnionMembership | bot.py:52-69 | an id is produced iff some segment contributes it |
| Ranges.ParseMembership | bot.py:51-69 | membership in the result, stated over the comma-separated segments without the parser's internals; a reversed range contributes nothing |
| Ranges.UnionAppend | bot.py:52-69 | segments contribute independently: the ids of a concatenation are the union of the ids of its parts |
| Ranges.MalformedSegmentIgnored | bot.py:61-69 | a segment that contributes nothing can be removed without changing the result |
| Ranges.UnionNonNegative | bot.py:56-66 | no produced id is negative |
| Ranges.BlankNamesNothing | bot.py:48-49 | an empty or all-whitespace expression names no id |
| Ranges.SingleOfDecimal | bot.py:64-66 | a segment that is a decimal number contributes exactly that number |
| Ranges.RangeOfDecimals | bot.py:56-60 | a segment `a-b` in decimals contributes exactly `a..b`, nothing when `a > b` |
| Ranges.ParseIdRanges | bot.py:46-70 | the loop returns exactly `sorted` of the named set: strictly ascending, the named ids and no others, none negative, and `[]` for blank input |
| RangeExamples.MalformedSkippedExample | bot.py:46-70 | `"abc,2,xyz-9"` gives `[2]` |
| RangeExamples.MixedExample | bot.py:46-70 | `"1-3,5,7-9"` gives `[1, 2, 3, 5, 7, 8, 9]` |
| RangeExamples.DuplicatesMergedExample | bot.py:46-70 | `"1,1,1-2"` gives `[1, 2]` |
| RangeExamples.ReversedRangeExample | bot.py:59 | `"5-3"` gives nothing: a reversed range is dropped, not swapped |
| RangeExamples.TwoHyphensExample | bot.py:58-63 | `"1-2-3"` gives nothing: three halves do not unpack into two |
| RangeExamples.LeadingHyphenExample | bot.py:58-63 | `"-5"` gives nothing: the empty half is not an integer, so no negative id appears |
| Lookup.Cell | bot.py:84 | `row.get(column, "")` on a row whose cells are their `str()` renderings |
| Lookup.Matches | bot.py:84-85 | a row grants access when its trimmed ДОСТУП cell equals the user id |
| Lookup.FirstMatch | bot.py:82-87 | the index found is of a row whose trimmed ДОСТУП equals the user id, with no such row before it; none is found only when no row matches |
| Lookup.FindUserRow | bot.py:82-87 | the scan that breaks at the first matching row finds exactly `FirstMatch` |
| Lookup.RowId | bot.py:102-110 | `int(row["ID"])`, where a missing ID column (`KeyError`) and a non-integer ID (`ValueError`) both give no id, so the row is skipped |
| Lookup.Catalog | bot.py:100-110 | the `all_objects` table after the loop over the rows, later rows overwriting earlier ones; `CatalogDomain` and `CatalogLastWins` state it |
| Lookup.ObjectOf | bot.py:104-107 | the catalog value of a row: its Адрес and Код cells, each `""` when the column is absent |
| Lookup.CatalogDomain | bot.py:100-110 | an id is absent from the catalog exactly when no row's ID column parses to it |
| Lookup.CatalogLastWins | bot.py:100-110 | when rows share an id, the catalog keeps the address and code of the last one |
| Lookup.BuildCatalog | bot.py:100-110 | the loop over the rows builds exactly `Catalog` of the rows |
| Lookup.EntryOfId | bot.py:100-118 | the entry for an id is "not found" iff no row's ID column parses to it; otherwise it is the address and code of the last row carrying it |
| Lookup.EntryFor | bot.py:114-118 | the message for one target id: the object's address and code if catalogued, else "not found" |
| Lookup.EntriesFor | bot.py:112-118 | the `messages` list after the loop: one entry per target id, in order, each `EntryFor` of that id; `RowReply` builds its reply from it |
| Lookup.AssembleEntries | bot.py:112-118 | one entry per target id, in order: the object's address and code if catalogued, "not found" otherwise |
| Lookup.Respond | bot.py:82-98 | the reply of `fetch_user_data` as a specification: no matching row gives "no access", otherwise the row decides (`RowReply`); `NoAccessIffNoRow` states it |
| Lookup.RowReply | bot.py:89-123 | the reply once a row is found, checked in the source's order: empty row, blank ИНФОРМАЦИЯ, no parsed id, then one entry per id; `ReplyForMatchedRow` and `EntriesPerId` state it |
| Lookup.FetchUserData | bot.py:82-123 | the three loops together give exactly the reply `Respond` specifies |
| Lookup.NoAccessIffNoRow | bot.py:82-90 | for a non-empty user id the reply is "no access" iff no row's trimmed ДОСТУП equals it |
| Lookup.ReplyForMatchedRow | bot.py:89-98 | for the first matching row, checked in order: blank ИНФОРМАЦИЯ gives "no data"; otherwise no parsed id gives "unrecognised"; otherwise entries |
| Lookup.EntriesPerId | bot.py:96-121 | entries come one per parsed id in ascending order; an entry is "not found" iff no row has that ID; otherwise it carries the last such row's address and code |
| Lookup.NoObjectsUnreachable | bot.py:120-123 | the "no available objects" reply is never produced |

## Left out

- `get_sheet` (bot.py:32-43): credentials, JSON loading and the gspread client are I/O. The fetched rows are an input sequence instead.
- The exception handlers of `fetch_user_data` (bot.py:125-130). The JSON handler (bot.py:125-127) catches a failure of the fetch, which is not modelled. The generic handler (bot.py:128-130) turns any exception into a "server error" reply, including the `MemoryError` named in the next line and the `OverflowError` named in the line on floating-point cells. The model has no such reply.
- Memory and time: `ids.update(range(start, end + 1))` (bot.py:60) builds every id of a range. For a range such as `1-10000000000000`, a `MemoryError` reaches the generic handler at bot.py:128-130, which answers with a server error; a range that fits in memory but is large only delays the reply. The model's sets are unbounded: `Respond` answers such a range with one entry per id.
- The Telegram handlers `start`, `refresh_button`, `error_handler` and `main` (bot.py:132-213), and the earlier `main` (bot.py:1-7), which the later one shadows. These are message transport and process start-up.
- `get_refresh_button` (bot.py:72-74): a fixed one-button keyboard with no logic.
- Logging calls: side effects with nothing to specify.
- The Markdown and emoji text of the replies: replies are the `Reply` datatype instead.
- Text.ParseInt: a simplified `int()`. It takes surrounding whitespace, an optional `+` or `-` and ASCII digits. Python also accepts `_` between digits and non-ASCII decimal digits; this model rejects both. CPython 3.11 and later (and the 3.10.7, 3.9.14, 3.8.14 and 3.7.14 security releases) refuse a digit string longer than 4300 digits with `ValueError`, so such a segment (bot.py:61, 67) or ID cell (bot.py:108) is skipped there; `ParseInt` accepts any length and reads it as a number.
- Text.ParseDecimal: holds for the model's `int()`. Under CPython versions with the 4300-digit limit (3.11 and later, and the 3.10.7, 3.9.14, 3.8.14 and 3.7.14 security releases), `int(str(n))` raises `ValueError` once `str(n)` has more than 4300 digits.
- Cells holding floating-point numbers: gspread may return one. `int()` truncates it (`int(3.7) == 3`), and for an infinite value `int(row["ID"])` at bot.py:103 raises `OverflowError`, which bot.py:108 does not catch, so the reply becomes the server error of bot.py:128-130. Cells are modelled as the text of integers and strings only.
- Python's `sorted` and `set` algorithms: only their results are modelled, by `SortedSet.Sorted` and Dafny sets.

=== FILE: lookup.dfy ===
/**
 * The decision logic of `fetch_user_data` once the sheet's rows have been
 * fetched: find the user's row, parse its ranges, build the table from object
 * id to address and code, and answer with one entry per authorized id.
 */
module Lookup {
  import opened Wrappers
  import opened Text
  import opened SortedSet
  import opened Ranges

  /**
   * One sheet row as `get_all_records` returns it: column name to the cell,
   * each cell taken as the text `str()` renders it to.
   */
  type Row = map<string, string>

  const AccessColumn: string := "ДОСТУП"
  const InfoColumn: string := "ИНФОРМАЦИЯ"
  const IdColumn: string := "ID"
  const AddressColumn: string := "Адрес"
  const CodeColumn: string := "Код"

  /** `row.get(column, "")`. */
  function Cell(row: Row, column: string): string {
    if column in row then row[column] else ""
  }

  /** What the table keeps of a catalogued object. */
  datatype ObjectInfo = ObjectInfo(address: string, code: string)

  /** One line of the answer: an object's address and code, or "not found". */
  datatype Entry = Found(address: string, code: string) | Missing(id: int)

  /** The answer to the user, without its Markdown and emoji. */
  datatype Reply =
    | NoAccess                      // no row grants this user access
    | NoData                        // the user's row has a blank ИНФОРМАЦИЯ cell
    | Unrecognised                  // the ИНФОРМАЦИЯ cell names no id
    | Entries(entries: seq<Entry>)  // one entry per authorized id, ascending
    | NoObjects                     // the "no available objects" answer

  /** The row's trimmed ДОСТУП cell equals the user's id, as strings. */
  predicate Matches(row: Row, userId: string) {
    Strip(Cell(row, AccessColumn)) == userId
  }

  /** The index of the first row that grants `userId` access, if any. */
  function FirstMatch(rows: seq<Row>, userId: string): (r: Option<nat>)
    ensures r.Some? ==> r.value < |rows| && Matches(rows[r.value], userId)
                        && forall j :: 0 <= j < r.value ==> !Matches(rows[j], userId)
    ensures r.None? ==> forall j :: 0 <= j < |rows| ==> !Matches(rows[j], userId)
  {
    if rows == [] then None
    else if Matches(rows[0], userId) then Some(0)
    else
      match FirstMatch(rows[1..], userId)
      case Some(k) => Some(k + 1)
      case None => None
  }

  /** The scan of `records` that stops at the first row granting access. */
  method FindUserRow(records: seq<Row>, userId: string) returns (found: Option<nat>)
    ensures found == FirstMatch(records, userId)
    ensures found.Some? ==> found.value < |records| && Matches(records[found.value], userId)
  {
    found := None;
    for i := 0 to |records|
      invariant forall j :: 0 <= j < i ==> !Matches(records[j], userId)
    {
      var accessValue := Strip(Cell(records[i], AccessColumn));
      if accessValue == userId {
        found := Some(i);
        break;
      }
    }
  }

  /** `int(row["ID"])`: `None` for a missing column (`KeyError`) or a non-integer (`ValueError`). */
  function RowId(row: Row): Option<int> {
    if IdColumn in row then ParseInt(row[IdColumn]) else None
  }

  function ObjectOf(row: Row): ObjectInfo {
    ObjectInfo(Cell(row, AddressColumn), Cell(row, CodeColumn))
  }

  /** The table `all_objects` after the rows have been entered in order. */
  function Catalog(rows: seq<Row>): map<int, ObjectInfo> {
    if rows == [] then map[]
    else
      var last := rows[|rows| - 1];
      var table := Catalog(rows[..|rows| - 1]);
      match RowId(last)
      case Some(id) => table[id := ObjectOf(last)]
      case None => table
  }

  /** The table holds exactly the ids of the rows that have an integer ID. */
  lemma {:induction false} CatalogDomain(rows: seq<Row>, id: int)
    ensures id !in Catalog(rows) <==> forall i :: 0 <= i < |rows| ==> RowId(rows[i]) != Some(id)
  {
    if rows != [] {
      var init := rows[..|rows| - 1];
      CatalogDomain(init, id);
      assert forall i :: 0 <= i < |init| ==> init[i] == rows[i];
    }
  }

  /**
   * When two rows share an id, the later one wins: the table gives each id the
   * address and code of the last row carrying it.
   */
  lemma {:induction false} CatalogLastWins(rows: seq<Row>, i: nat)
    requires i < |rows| && RowId(rows[i]).Some?
    requires forall j :: i < j < |rows| ==> RowId(rows[j]) != RowId(rows[i])
    ensures RowId(rows[i]).value in Catalog(rows)
    ensures Catalog(rows)[RowId(rows[i]).value] == ObjectOf(rows[i])
  {
    var init := rows[..|rows| - 1];
    if i < |init| {
      assert forall j :: i < j < |init| ==> init[j] == rows[j];
      assert init[i] == rows[i];
      CatalogLastWins(init, i);
    }
  }

  /** The loop that fills `all_objects`, skipping rows without an integer ID. */
  method BuildCatalog(records: seq<Row>) returns (allObjects: map<int, ObjectInfo>)
    ensures allObjects == Catalog(records)
  {
    allObjects := map[];
    for i := 0 to |records|
      invariant allObjects == Catalog(records[..i])
    {
      assert records[..i + 1][..i] == records[..i];
      var row := records[i];
      if IdColumn !in row {
        continue;
      }
      var objId := ParseInt(row[IdColumn]);
      if objId.None? {
        continue;
      }
      allObjects := allObjects[objId.value := ObjectInfo(Cell(row, AddressColumn), Cell(row, CodeColumn))];
    }
    assert records[..|records|] == records;
  }

  /** The entry for one authorized id: its object if catalogued, else "not found". */
  function EntryFor(id: int, table: map<int, ObjectInfo>): Entry {
    if id in table then Found(table[id].address, table[id].code) else Missing(id)
  }

  /** One entry per target id, in the targets' order. */
  function EntriesFor(targetIds: seq<int>, table: map<int, ObjectInfo>): seq<Entry> {
    seq(|targetIds|, k requires 0 <= k < |targetIds| => EntryFor(targetIds[k], table))
  }

  /** The loop that appends one message per target id, in the targets' order. */
  method AssembleEntries(targetIds: seq<int>, allObjects: map<int, ObjectInfo>)
    returns (messages: seq<Entry>)
    ensures |messages| == |targetIds|
    ensures forall k :: 0 <= k < |targetIds| ==> messages[k] == EntryFor(targetIds[k], allObjects)
    ensures messages == EntriesFor(targetIds, allObjects)
  {
    messages := [];
    for k := 0 to |targetIds|
      invariant |messages| == k
      invariant forall m :: 0 <= m < k ==> messages[m] == EntryFor(targetIds[m], allObjects)
    {
      var tid := targetIds[k];
      if tid in allObjects {
        var obj := allObjects[tid];
        messages := messages + [Found(obj.address, obj.code)];
      } else {
        messages := messages + [Missing(tid)];
      }
    }
    assert messages == EntriesFor(targetIds, allObjects);
  }

  /** The reply `fetch_user_data` gives, as a specification. */
  ghost function Respond(records: seq<Row>, userId: string): Reply {
    match FirstMatch(records, userId)
    case None => NoAccess
    case Some(i) => RowReply(records, records[i])
  }

  /** The reply once the user's row is found: its ИНФОРМАЦИЯ cell decides. */
  ghost function RowReply(records: seq<Row>, userRow: Row): Reply {
    if userRow == map[] then NoAccess
    else
      var info := Strip(Cell(userRow, InfoColumn));
      if info == [] then NoData
      else
        var targetIds := SortedElements(IdSet(info));
        if targetIds == [] then Unrecognised
        else
          var table := Catalog(records);
          var messages := EntriesFor(targetIds, table);
          if messages != [] then Entries(messages) else NoObjects
  }

  /** `fetch_user_data` on already fetched rows. */
  method FetchUserData(records: seq<Row>, userId: string) returns (reply: Reply)
    ensures reply == Respond(records, userId)
  {
    var found := FindUserRow(records, userId);
    if found.None? {
      return NoAccess;
    }
    var userRow := records[found.value];
    if userRow == map[] {
      return NoAccess;
    }
    var infoStr := Strip(Cell(userRow, InfoColumn));
    if infoStr == [] {
      return NoData;
    }
    var targetIds := ParseIdRanges(infoStr);
    if targetIds == [] {
      return Unrecognised;
    }
    var allObjects := BuildCatalog(records);
    var messages := AssembleEntries(targetIds, allObjects);
    if messages != [] {
      reply := Entries(messages);
    } else {
      reply := NoObjects;
    }
  }

  /**
   * A user id is never empty, and then the answer is "no access" exactly
   * when no row's trimmed ДОСТУП cell equals it.
   */
  lemma NoAccessIffNoRow(records: seq<Row>, userId: string)
    requires userId != []
    ensures Respond(records, userId) == NoAccess
            <==> forall j :: 0 <= j < |records| ==> !Matches(records[j], userId)
  {
    if FirstMatch(records, userId).Some? {
      assert Cell(map[], AccessColumn) == [];
    }
  }

  /**
   * For the first row granting access, the checks come in the source's order:
   * a blank ИНФОРМАЦИЯ cell gives "no data"; otherwise a cell naming no id
   * gives "unrecognised"; otherwise the answer lists entries.
   */
  lemma ReplyForMatchedRow(records: seq<Row>, userId: string, i: nat)
    requires FirstMatch(records, userId) == Some(i) && records[i] != map[]
    ensures var info := Cell(records[i], InfoColumn);
            && (Respond(records, userId) == NoData <==> AllSpace(info))
            && (Respond(records, userId) == Unrecognised
                <==> !AllSpace(info) && IdSet(Strip(info)) == {})
            && (Respond(records, userId).Entries? <==> IdSet(Strip(info)) != {})
  {
    var info := Cell(records[i], InfoColumn);
    StripFacts(info);
    if Strip(info) == [] {
      assert Split(Strip(info), ',') == [[]];
      assert UnionOf([[]]) == UnionOf([]) + SegmentIds([]);
    } else {
      var t := SortedElements(IdSet(Strip(info)));
      if t != [] {
        assert EntryFor(t[0], Catalog(records)) == EntriesFor(t, Catalog(records))[0];
      }
    }
  }

  /**
   * When the user's ranges name at least one id, the answer has exactly one
   * entry per id, in ascending id order. An entry is "not found" exactly when
   * no row carries that id in its ID column; otherwise it is the address and
   * code of the last row that does.
   */
  lemma EntriesPerId(records: seq<Row>, userId: string, i: nat)
    requires FirstMatch(records, userId) == Some(i) && records[i] != map[]
    requires IdSet(Strip(Cell(records[i], InfoColumn))) != {}
    ensures var ids := IdSet(Strip(Cell(records[i], InfoColumn)));
            var t := SortedElements(ids);
            && Respond(records, userId).Entries?
            && |Respond(records, userId).entries| == |t|
            && StrictlyIncreasing(t) && (forall x :: x in t <==> x in ids)
            && (forall k :: 0 <= k < |t| ==>
                  (Respond(records, userId).entries[k] == Missing(t[k])
                   <==> forall j :: 0 <= j < |records| ==> RowId(records[j]) != Some(t[k])))
            && (forall k, j ::
                  0 <= k < |t| && 0 <= j < |records| && RowId(records[j]) == Some(t[k])
                  && (forall l :: j < l < |records| ==> RowId(records[l]) != Some(t[k]))
                  ==> Respond(records, userId).entries[k]
                      == Found(Cell(records[j], AddressColumn), Cell(records[j], CodeColumn)))
  {
    var info := Cell(records[i], InfoColumn);
    ReplyForMatchedRow(records, userId, i);
    var ids := IdSet(Strip(info));
    var t := SortedElements(ids);
    var table := Catalog(records);
    var es := Respond(records, userId).entries;
    assert es == EntriesFor(t, table);
    forall k | 0 <= k < |t|
      ensures es[k] == EntryFor(t[k], table)
      ensures es[k] == Missing(t[k]) <==> forall j :: 0 <= j < |records| ==> RowId(records[j]) != Some(t[k])
    {
      EntryOfId(records, t[k]);
    }
    forall k, j | 0 <= k < |t| && 0 <= j < |records| && RowId(records[j]) == Some(t[k])
                  && (forall l :: j < l < |records| ==> RowId(records[l]) != Some(t[k]))
      ensures es[k] == Found(Cell(records[j], AddressColumn), Cell(records[j], CodeColumn))
    {
      EntryOfId(records, t[k]);
    }
  }

  /** The entry for one id: "not found" when no row carries it, else the last such row's object. */
  lemma EntryOfId(rows: seq<Row>, id: int)
    ensures EntryFor(id, Catalog(rows)) == Missing(id)
            <==> forall j :: 0 <= j < |rows| ==> RowId(rows[j]) != Some(id)
    ensures forall j :: 0 <= j < |rows| && RowId(rows[j]) == Some(id)
                        && (forall l :: j < l < |rows| ==> RowId(rows[l]) != Some(id))
                        ==> EntryFor(id, Catalog(rows))
                            == Found(Cell(rows[j], AddressColumn), Cell(rows[j], CodeColumn))
  {
    CatalogDomain(rows, id);
    forall j | 0 <= j < |rows| && RowId(rows[j]) == Some(id)
               && (forall l :: j < l < |rows| ==> RowId(rows[l]) != Some(id))
      ensures EntryFor(id, Catalog(rows)) == Found(Cell(rows[j], AddressColumn), Cell(rows[j], CodeColumn))
    {
      CatalogLastWins(rows, j);
    }
  }

  /** The "no available objects" answer is never given: a non-empty id list yields entries. */
  lemma NoObjectsUnreachable(records: seq<Row>, userId: string)
    ensures Respond(records, userId) != NoObjects
  {
    match FirstMatch(records, userId)
    case None =>
    case Some(i) =>
      if records[i] != map[] {
        var info := Strip(Cell(records[i], InfoColumn));
        if info != [] {
          var t := SortedElements(IdSet(info));
          if t != [] {
            var es := EntriesFor(t, Catalog(records));
            assert |es| == |t|;
          }
        }
      }
  }
}

=== FILE: range_examples.dfy ===
/**
 * Worked inputs of `parse_id_ranges`, each with the exact list it returns.
 *
 * The small helpers here (`SplitHalves`, `SplitHead`, the `...Tail` lemmas,
 * `Single`, `Range`) only restate lemmas of `Text` and `Ranges` for literal
 * strings. Each takes one step on one literal, which keeps the solver's work
 * on literal strings small; they add no facts of their own.
 */
module RangeExamples {
  import opened Wrappers
  import opened Text
  import opened SortedSet
  import opened Ranges

  lemma UnionOfOne(a: string)
    ensures UnionOf([a]) == SegmentIds(a)
  {
    assert [a][..0] == [];
  }

  lemma UnionOfThree(a: string, b: string, c: string)
    ensures UnionOf([a, b, c]) == SegmentIds(a) + SegmentIds(b) + SegmentIds(c)
  {
    var parts := [a, b, c];
    assert parts[..2] == [a, b] && [a, b][..1] == [a] && [a][..0] == [];
    assert UnionOf([a]) == SegmentIds(a);
    assert UnionOf([a, b]) == SegmentIds(a) + SegmentIds(b);
  }

  lemma NotAnInteger()
    ensures SegmentIds("abc") == {}
  {
    StripNoOuterSpace("abc");
    assert !IsDigit("abc"[0]);
  }

  lemma NotARange()
    ensures SegmentIds("xyz-9") == {}
  {
    StripNoOuterSpace("xyz-9");
    SplitHalves("xyz", "9", "xyz-9");
    NotAnIntegerHalf();
  }

  lemma NotAnIntegerHalf()
    ensures ParseInt("xyz") == None
  {
    StripNoOuterSpace("xyz");
    assert !IsDigit("xyz"[0]);
  }

  /** A segment holding exactly one hyphen splits into the two sides of it. */
  lemma SplitHalves(a: string, b: string, s: string)
    requires s == a + ['-'] + b && '-' !in a && '-' !in b
    ensures Split(s, '-') == [a, b]
  {
    SplitAtOnly(a, b, '-');
  }

  /** Splitting at the first separator of a literal: the part before it comes first. */
  lemma SplitHead(a: string, rest: string, s: string, sep: char)
    requires s == a + [sep] + rest && sep !in a
    ensures Split(s, sep) == [a] + Split(rest, sep)
  {
    SplitFirst(a, rest, sep);
  }

  lemma SplitMalformed()
    ensures Split("abc,2,xyz-9", ',') == ["abc", "2", "xyz-9"]
  {
    SplitHead("abc", "2,xyz-9", "abc,2,xyz-9", ',');
    SplitMalformedTail();
  }

  lemma SplitMalformedTail()
    ensures Split("2,xyz-9", ',') == ["2", "xyz-9"]
  {
    assert "2,xyz-9" == "2" + [','] + "xyz-9";
    SplitAtOnly("2", "xyz-9", ',');
  }

  lemma SplitMixed()
    ensures Split("1-3,5,7-9", ',') == ["1-3", "5", "7-9"]
  {
    SplitHead("1-3", "5,7-9", "1-3,5,7-9", ',');
    SplitMixedTail();
  }

  lemma SplitMixedTail()
    ensures Split("5,7-9", ',') == ["5", "7-9"]
  {
    assert "5,7-9" == "5" + [','] + "7-9";
    SplitAtOnly("5", "7-9", ',');
  }

  lemma SplitDuplicates()
    ensures Split("1,1,1-2", ',') == ["1", "1", "1-2"]
  {
    SplitHead("1", "1,1-2", "1,1,1-2", ',');
    SplitDuplicatesTail();
  }

  lemma SplitDuplicatesTail()
    ensures Split("1,1-2", ',') == ["1", "1-2"]
  {
    assert "1,1-2" == "1" + [','] + "1-2";
    SplitAtOnly("1", "1-2", ',');
  }

  lemma Single(n: nat, s: string)
    requires n < 10 && s == [('0' as int + n) as char]
    ensures SegmentIds(s) == {n}
  {
    SingleOfDecimal(n);
  }

  lemma Range(a: nat, b: nat, s: string)
    requires a < 10 && b < 10
    requires s == [('0' as int + a) as char, '-', ('0' as int + b) as char]
    ensures SegmentIds(s) == Interval(a, b)
  {
    RangeOfDecimals(a, b);
    assert s == Decimal(a) + ['-'] + Decimal(b);
  }

  /** "abc,2,xyz-9" gives [2]: the malformed segments are skipped one by one. */
  lemma MalformedSkippedExample()
    ensures SortedElements(IdSet("abc,2,xyz-9")) == [2]
  {
    SplitMalformed();
    MalformedParts();
    SortedElementsIs({2}, [2]);
  }

  lemma MalformedParts()
    ensures UnionOf(["abc", "2", "xyz-9"]) == {2}
  {
    NotAnInteger();
    Single(2, "2");
    NotARange();
    UnionOfThree("abc", "2", "xyz-9");
  }

  /** "1-3,5,7-9" gives [1, 2, 3, 5, 7, 8, 9]. */
  lemma MixedExample()
    ensures SortedElements(IdSet("1-3,5,7-9")) == [1, 2, 3, 5, 7, 8, 9]
  {
    SplitMixed();
    Range(1, 3, "1-3");
    Single(5, "5");
    Range(7, 9, "7-9");
    UnionOfThree("1-3", "5", "7-9");
    MixedSorted();
  }

  lemma MixedSorted()
    ensures SortedElements(Interval(1, 3) + {5} + Interval(7, 9)) == [1, 2, 3, 5, 7, 8, 9]
  {
    var r := [1, 2, 3, 5, 7, 8, 9];
    assert StrictlyIncreasing(r) by {
      forall i, j | 0 <= i < j < |r| ensures r[i] < r[j] {
        assert forall k :: 0 <= k < |r| - 1 ==> r[k] < r[k + 1];
        AscendingSteps(r, i, j);
      }
    }
    SortedElementsIs(Interval(1, 3) + {5} + Interval(7, 9), r);
  }

  /** "1,1,1-2" gives [1, 2]: overlapping segments are merged. */
  lemma DuplicatesMergedExample()
    ensures SortedElements(IdSet("1,1,1-2")) == [1, 2]
  {
    SplitDuplicates();
    DuplicateParts();
    DuplicatesSorted();
  }

  lemma DuplicatesSorted()
    ensures SortedElements({1} + Interval(1, 2)) == [1, 2]
  {
    assert Interval(1, 2) == {1, 2};
    SortedElementsIs({1, 2}, [1, 2]);
  }

  lemma DuplicateParts()
    ensures UnionOf(["1", "1", "1-2"]) == {1} + Interval(1, 2)
  {
    Single(1, "1");
    Range(1, 2, "1-2");
    UnionOfThree("1", "1", "1-2");
  }

  /** "5-3" gives []: a reversed range is dropped, not swapped. */
  lemma ReversedRangeExample()
    ensures IdSet("5-3") == {}
  {
    SplitNone("5-3", ',');
    Range(5, 3, "5-3");
    UnionOfOne("5-3");
  }

  /** "1-2-3" gives []: a segment with two hyphens does not unpack into two halves. */
  lemma TwoHyphensExample()
    ensures IdSet("1-2-3") == {}
  {
    SplitNone("1-2-3", ',');
    UnionOfOne("1-2-3");
    TwoHyphensSegment();
  }

  lemma TwoHyphensSegment()
    ensures SegmentIds("1-2-3") == {}
  {
    StripNoOuterSpace("1-2-3");
    SplitHead("1", "2-3", "1-2-3", '-');
    SplitHalves("2", "3", "2-3");
  }

  /** "-5" gives []: the empty half before the hyphen is not an integer. */
  lemma LeadingHyphenExample()
    ensures IdSet("-5") == {}
  {
    SplitNone("-5", ',');
    UnionOfOne("-5");
    StripNoOuterSpace("-5");
    SplitAtOnly([], "5", '-');
  }
}

=== FILE: ranges.dfy ===
/**
 * `parse_id_ranges`: turns an authorization string such as "1-5,7,10-12"
 * into the ascending, duplicate-free list of object ids it names.
 *
 * Each comma-separated segment is trimmed. An empty segment is skipped. A
 * segment holding a hyphen is a range "a-b" that must split into exactly two
 * integers; it adds a..b inclusive when a <= b and nothing otherwise. Any
 * other segment must be one integer. A segment that does not read this way
 * (Python raises `ValueError`) is skipped without affecting the others.
 */
module Ranges {
  import opened Wrappers
  import opened Text
  import opened SortedSet

  /** Python's `range(start, end + 1)`, as a set: empty when start > end. */
  function Interval(start: int, end: int): (r: set<int>)
    ensures forall x :: x in r <==> start <= x <= end
    decreases end - start
  {
    if start > end then {} else Interval(start, end - 1) + {end}
  }

  /** The ids that one raw comma-separated segment contributes. */
  function SegmentIds(part: string): set<int> {
    var p := Strip(part);
    if p == [] then {}
    else if '-' in p then RangeIds(p)
    else
      match ParseInt(p)
      case Some(n) => {n}
      case None => {}
  }

  /**
   * A trimmed segment holding a hyphen: `start, end = map(int, p.split("-"))`
   * fails unless there are exactly two halves and both are integers.
   */
  function RangeIds(p: string): set<int> {
    var halves := Split(p, '-');
    if |halves| == 2 && ParseInt(halves[0]).Some? && ParseInt(halves[1]).Some? then
      Interval(ParseInt(halves[0]).value, ParseInt(halves[1]).value)
    else {}
  }

  /** The ids that a sequence of segments contributes, segment by segment. */
  function UnionOf(parts: seq<string>): set<int> {
    if parts == [] then {}
    else UnionOf(parts[..|parts| - 1]) + SegmentIds(parts[|parts| - 1])
  }

  /** The set of ids an authorization string names. */
  function IdSet(rangeStr: string): set<int> {
    UnionOf(Split(rangeStr, ','))
  }

  /** A trimmed segment without a hyphen that reads as the integer `x`. */
  predicate SingleIdSegment(p: string, x: int) {
    '-' !in p && ParseInt(p) == Some(x)
  }

  /** `p` is "a-b" with exactly one hyphen, both sides integers, a <= x <= b. */
  predicate RangeSegmentCovers(p: string, x: int) {
    exists k :: 0 <= k < |p| && p[k] == '-' && '-' !in p[..k] && '-' !in p[k + 1..]
                && ParseInt(p[..k]).Some? && ParseInt(p[k + 1..]).Some?
                && ParseInt(p[..k]).value <= x <= ParseInt(p[k + 1..]).value
  }

  /** `p` splits on its hyphens into exactly two halves iff it is "a-b" with one hyphen. */
  lemma TwoHalves(p: string, k: nat)
    requires k < |p| && p[k] == '-'
    ensures (|Split(p, '-')| == 2 && Split(p, '-')[0] == p[..k])
            <==> ('-' !in p[..k] && '-' !in p[k + 1..])
    ensures '-' !in p[..k] && '-' !in p[k + 1..] ==> Split(p, '-') == [p[..k], p[k + 1..]]
  {
    assert p == p[..k] + ['-'] + p[k + 1..];
    var halves := Split(p, '-');
    if |halves| == 2 && halves[0] == p[..k] {
      JoinSplit(p, '-');
      assert p == halves[0] + ['-'] + halves[1];
      assert p[k + 1..] == halves[1];
    }
    if '-' !in p[..k] && '-' !in p[k + 1..] {
      SplitAtOnly(p[..k], p[k + 1..], '-');
    }
  }

  /** A range segment covers exactly what its two halves around the hyphen bound. */
  lemma RangeMembership(p: string, x: int)
    ensures x in RangeIds(p) <==> RangeSegmentCovers(p, x)
  {
    var halves := Split(p, '-');
    if x in RangeIds(p) {
      JoinSplit(p, '-');
      var k := |halves[0]|;
      assert p == halves[0] + ['-'] + halves[1];
      assert p[k] == '-';
      TwoHalves(p, k);
    }
    if RangeSegmentCovers(p, x) {
      var k :| 0 <= k < |p| && p[k] == '-' && '-' !in p[..k] && '-' !in p[k + 1..]
               && ParseInt(p[..k]).Some? && ParseInt(p[k + 1..]).Some?
               && ParseInt(p[..k]).value <= x <= ParseInt(p[k + 1..]).value;
      TwoHalves(p, k);
    }
  }

  /** What one segment contributes, stated without `Split`. */
  lemma SegmentMembership(part: string, x: int)
    ensures x in SegmentIds(part)
            <==> SingleIdSegment(Strip(part), x) || RangeSegmentCovers(Strip(part), x)
  {
    var p := Strip(part);
    if '-' in p {
      RangeMembership(p, x);
    } else {
      assert forall k :: 0 <= k < |p| ==> p[k] != '-';
    }
  }

  /** A segment that is the decimal rendering of `n` contributes exactly `n`. */
  lemma SingleOfDecimal(n: nat)
    ensures SegmentIds(Decimal(n)) == {n}
  {
    var d := Decimal(n);
    ParseDecimal(n);
    StripNoOuterSpace(d);
    assert forall k :: 0 <= k < |d| ==> d[k] != '-';
  }

  /** A segment "a-b" written in decimals contributes a..b, nothing when a > b. */
  lemma RangeOfDecimals(a: nat, b: nat)
    ensures SegmentIds(Decimal(a) + ['-'] + Decimal(b)) == Interval(a, b)
  {
    var da, db := Decimal(a), Decimal(b);
    var p := da + ['-'] + db;
    assert p[|da|] == '-';
    assert p[0] == da[0] && p[|p| - 1] == db[|db| - 1];
    StripNoOuterSpace(p);
    assert forall k :: 0 <= k < |da| ==> da[k] != '-';
    assert forall k :: 0 <= k < |db| ==> db[k] != '-';
    SplitAtOnly(da, db, '-');
    ParseDecimal(a);
    ParseDecimal(b);
  }

  /** An id is produced exactly when some segment contributes it. */
  lemma {:induction false} UnionMembership(parts: seq<string>, x: int)
    ensures x in UnionOf(parts) <==> exists i :: 0 <= i < |parts| && x in SegmentIds(parts[i])
  {
    if parts != [] {
      var init := parts[..|parts| - 1];
      UnionMembership(init, x);
      if x in UnionOf(init) {
        var i :| 0 <= i < |init| && x in SegmentIds(init[i]);
        assert parts[i] == init[i];
      }
      forall i | 0 <= i < |parts| - 1 && x in SegmentIds(parts[i]) ensures x in UnionOf(init) {
        assert init[i] == parts[i];
      }
    }
  }

  /**
   * Membership in the parser's result: `x` is produced iff some trimmed
   * segment without a hyphen reads as `x`, or some trimmed segment "a-b"
   * with exactly one hyphen reads as integers a <= x <= b. A reversed range
   * therefore contributes nothing; it is not swapped.
   */
  lemma ParseMembership(rangeStr: string, x: int)
    ensures x in IdSet(rangeStr)
            <==> exists i :: 0 <= i < |Split(rangeStr, ',')|
                             && (SingleIdSegment(Strip(Split(rangeStr, ',')[i]), x)
                                 || RangeSegmentCovers(Strip(Split(rangeStr, ',')[i]), x))
  {
    var parts := Split(rangeStr, ',');
    UnionMembership(parts, x);
    forall i | 0 <= i < |parts|
      ensures x in SegmentIds(parts[i])
              <==> SingleIdSegment(Strip(parts[i]), x) || RangeSegmentCovers(Strip(parts[i]), x)
    {
      SegmentMembership(parts[i], x);
    }
  }

  /** The segments contribute independently: the result of a concatenation is the union. */
  lemma {:induction false} UnionAppend(a: seq<string>, b: seq<string>)
    ensures UnionOf(a + b) == UnionOf(a) + UnionOf(b)
    decreases |b|
  {
    if b == [] {
      assert a + b == a;
    } else {
      var init := b[..|b| - 1];
      assert (a + b)[..|a + b| - 1] == a + init;
      UnionAppend(a, init);
    }
  }

  /** A segment that contributes nothing can be dropped without changing the result. */
  lemma MalformedSegmentIgnored(before: seq<string>, bad: string, after: seq<string>)
    requires SegmentIds(bad) == {}
    ensures UnionOf(before + [bad] + after) == UnionOf(before + after)
  {
    UnionAppend(before + [bad], after);
    UnionAppend(before, [bad]);
    UnionAppend(before, after);
    assert UnionOf([bad]) == UnionOf([]) + SegmentIds(bad);
  }

  /**
   * No id is ever negative: a segment holding a hyphen takes the range path,
   * and the two halves around the hyphen cannot hold one.
   */
  lemma {:induction false} UnionNonNegative(parts: seq<string>)
    ensures forall x :: x in UnionOf(parts) ==> x >= 0
  {
    if parts != [] {
      UnionNonNegative(parts[..|parts| - 1]);
      var part := parts[|parts| - 1];
      var p := Strip(part);
      if '-' in p {
        var halves := Split(p, '-');
        assert |halves| == 2 ==> '-' !in halves[0];
      }
    }
  }

  /** A string of whitespace only names no id. */
  lemma BlankNamesNothing(rangeStr: string)
    requires AllSpace(rangeStr)
    ensures IdSet(rangeStr) == {}
  {
    var parts := Split(rangeStr, ',');
    forall i | 0 <= i < |parts| ensures SegmentIds(parts[i]) == {} {
      forall k | 0 <= k < |parts[i]| ensures IsSpace(parts[i][k]) {
        assert parts[i][k] in rangeStr;
      }
      StripFacts(parts[i]);
    }
    forall x ensures x !in UnionOf(parts) {
      UnionMembership(parts, x);
    }
  }

  /**
   * `parse_id_ranges`: the ids named by `rangeStr`, ascending and without
   * duplicates, never negative, and none at all for a blank string.
   */
  method ParseIdRanges(rangeStr: string) returns (ids: seq<int>)
    ensures StrictlyIncreasing(ids)
    ensures forall x :: x in ids <==> x in IdSet(rangeStr)
    ensures ids == SortedElements(IdSet(rangeStr))
    ensures forall k :: 0 <= k < |ids| ==> ids[k] >= 0
    ensures AllSpace(rangeStr) ==> ids == []
  {
    StripFacts(rangeStr);
    if Strip(rangeStr) == [] {
      BlankNamesNothing(rangeStr);
      return [];
    }
    var found: set<int> := {};
    var parts := Split(rangeStr, ',');
    for i := 0 to |parts|
      invariant found == UnionOf(parts[..i])
    {
      assert parts[..i + 1][..i] == parts[..i];
      assert UnionOf(parts[..i + 1]) == found + SegmentIds(parts[i]);
      var part := Strip(parts[i]);
      if part == [] {
        continue;
      }
      if '-' in part {
        var halves := Split(part, '-');
        if |halves| != 2 {
          continue;
        }
        var start, end := ParseInt(halves[0]), ParseInt(halves[1]);
        if start.None? || end.None? {
          continue;
        }
        if start.value <= end.value {
          found := found + Interval(start.value, end.value);
        }
      } else {
        var n := ParseInt(part);
        if n.None? {
          continue;
        }
        found := found + {n.value};
      }
    }
    assert parts[..|parts|] == parts;
    UnionNonNegative(parts);
    ids := Sorted(found);
    forall k | 0 <= k < |ids| ensures ids[k] >= 0 {
      assert ids[k] in found;
    }
  }
}

=== FILE: sorted_set.dfy ===
/**
 * Python's `sorted(s)` applied to a set of integers: the elements of the set,
 * each once, in ascending order.
 */
module SortedSet {

  predicate StrictlyIncreasing(s: seq<int>) {
    forall i, j :: 0 <= i < j < |s| ==> s[i] < s[j]
  }

  /** A sequence whose neighbours increase is increasing. */
  lemma {:induction false} AscendingSteps(r: seq<int>, i: nat, j: nat)
    requires forall k :: 0 <= k < |r| - 1 ==> r[k] < r[k + 1]
    requires i < j < |r|
    ensures r[i] < r[j]
    decreases j - i
  {
    if i + 1 < j {
      AscendingSteps(r, i + 1, j);
    }
  }

  /** Every non-empty finite set of integers has a least element. */
  lemma {:induction false} MinExists(s: set<int>)
    requires s != {}
    ensures exists m :: m in s && forall y :: y in s ==> m <= y
    decreases |s|
  {
    if forall z :: z !in s {
      assert false;
    }
    var x :| x in s;
    if s != {x} {
      var rest := s - {x};
      MinExists(rest);
      var m :| m in rest && forall y :: y in rest ==> m <= y;
      var least := if x < m then x else m;
      forall y | y in s ensures least <= y {
        if y != x {
          assert y in rest;
        }
      }
    }
  }

  /** The ascending sequence of the elements of `s`, as a specification. */
  ghost function SortedElements(s: set<int>): (r: seq<int>)
    ensures StrictlyIncreasing(r)
    ensures forall x :: x in r <==> x in s
    ensures |r| == |s|
    decreases |s|
  {
    if s == {} then []
    else
      MinExists(s);
      var m :| m in s && forall y :: y in s ==> m <= y;
      [m] + SortedElements(s - {m})
  }

  /** Two ascending sequences with the same elements are equal. */
  lemma {:induction false} SortedUnique(a: seq<int>, b: seq<int>)
    requires StrictlyIncreasing(a) && StrictlyIncreasing(b)
    requires forall x :: x in a <==> x in b
    ensures a == b
  {
    if a != [] {
      assert a[0] in a;
    }
    if b != [] {
      assert b[0] in b;
    }
    if a != [] && b != [] {
      assert a[0] == b[0];
      forall x ensures x in a[1..] <==> x in b[1..] {
        if x in a[1..] {
          assert x in b;
          assert x != b[0];
        }
        if x in b[1..] {
          assert x in a;
          assert x != a[0];
        }
      }
      SortedUnique(a[1..], b[1..]);
      assert a == [a[0]] + a[1..] && b == [b[0]] + b[1..];
    }
  }

  /** `SortedElements(s)` is the one ascending sequence holding exactly the elements of `s`. */
  lemma SortedElementsIs(s: set<int>, r: seq<int>)
    requires StrictlyIncreasing(r)
    requires forall x :: x in r <==> x in s
    ensures SortedElements(s) == r
  {
    SortedUnique(SortedElements(s), r);
  }

  /**
   * Computes the result of Python's `sorted(s)` by a selection loop that takes
   * the least element not yet taken. CPython sorts the set's iteration order
   * with Timsort instead; only the result is modelled, and it is unique
   * (`SortedUnique`).
   */
  method Sorted(s: set<int>) returns (r: seq<int>)
    ensures StrictlyIncreasing(r)
    ensures forall x :: x in r <==> x in s
    ensures r == SortedElements(s)
  {
    var rest := s;
    r := [];
    while rest != {}
      invariant rest <= s
      invariant StrictlyIncreasing(r)
      invariant forall x :: x in r <==> x in s && x !in rest
      invariant forall i, y :: 0 <= i < |r| && y in rest ==> r[i] < y
      decreases |rest|
    {
      MinExists(rest);
      var m :| m in rest && forall y :: y in rest ==> m <= y;
      r := r + [m];
      rest := rest - {m};
    }
    SortedUnique(r, SortedElements(s));
  }
}

=== FILE: text.dfy ===
/**
 * The pieces of Python's string and integer built-ins that the bot relies on:
 * `str.strip()`, `str.split(sep)` with a one-character separator, and `int(s)`
 * on a string.
 */
module Text {
  import opened Wrappers

  /** Python's `str.isspace()`: the characters `str.strip()` and `int()` skip. */
  predicate IsSpace(c: char) {
    var n := c as int;
    (9 <= n <= 13) || (28 <= n <= 32) || n == 0x85 || n == 0xA0 || n == 0x1680
    || (0x2000 <= n <= 0x200A) || n == 0x2028 || n == 0x2029 || n == 0x202F
    || n == 0x205F || n == 0x3000
  }

  predicate AllSpace(s: string) {
    forall k :: 0 <= k < |s| ==> IsSpace(s[k])
  }

  /** Removes leading whitespace. */
  function TrimLeft(s: string): string {
    if |s| > 0 && IsSpace(s[0]) then TrimLeft(s[1..]) else s
  }

  /** `TrimLeft` drops a prefix of whitespace and stops at the first other character. */
  lemma {:induction false} TrimLeftFacts(s: string)
    ensures var r := TrimLeft(s);
            |r| <= |s| && r == s[|s| - |r|..] && (r == [] || !IsSpace(r[0]))
            && AllSpace(s[..|s| - |r|])
  {
    if |s| > 0 && IsSpace(s[0]) {
      TrimLeftFacts(s[1..]);
    }
  }

  /** Removes trailing whitespace. */
  function TrimRight(s: string): string {
    if |s| > 0 && IsSpace(s[|s| - 1]) then TrimRight(s[..|s| - 1]) else s
  }

  /** `TrimRight` drops a suffix of whitespace and stops at the last other character. */
  lemma {:induction false} TrimRightFacts(s: string)
    ensures var r := TrimRight(s);
            |r| <= |s| && r == s[..|r|] && (r == [] || !IsSpace(r[|r| - 1]))
            && AllSpace(s[|r|..])
  {
    if |s| > 0 && IsSpace(s[|s| - 1]) {
      TrimRightFacts(s[..|s| - 1]);
      var r := TrimRight(s);
      assert s[|r|..] == s[..|s| - 1][|r|..] + [s[|s| - 1]];
    }
  }

  /** Python's `s.strip()`: `s` without its leading and trailing whitespace. */
  function Strip(s: string): string {
    TrimRight(TrimLeft(s))
  }

  /**
   * What is left by `Strip` is a contiguous middle part of `s` with only
   * whitespace cut from either end; it neither starts nor ends with
   * whitespace, and it is empty exactly when `s` is all whitespace.
   */
  lemma StripFacts(s: string)
    ensures var r := Strip(s);
            && (exists i :: 0 <= i && i + |r| <= |s| && r == s[i..i + |r|]
                            && AllSpace(s[..i]) && AllSpace(s[i + |r|..]))
            && (r == [] || (!IsSpace(r[0]) && !IsSpace(r[|r| - 1])))
            && (r == [] <==> AllSpace(s))
            && (forall c :: c in r ==> c in s)
  {
    var t := TrimLeft(s);
    var r := TrimRight(t);
    TrimLeftFacts(s);
    TrimRightFacts(t);
    var i := |s| - |t|;
    assert r == s[i..i + |r|];
    assert s[i + |r|..] == t[|r|..];
    forall c | c in r ensures c in s {
      var k :| 0 <= k < |r| && r[k] == c;
      assert t[k] == c;
      assert s[i + k] == c;
    }
    if r == [] {
      assert t == [];
      forall k | 0 <= k < |s| ensures IsSpace(s[k]) {
        assert s[..i][k] == s[k];
      }
    } else {
      assert r[0] == s[i];
    }
  }

  /** The number of times `c` occurs in `s`. */
  function Occurrences(s: string, c: char): (n: nat)
    ensures n == 0 <==> c !in s
  {
    if s == [] then 0 else (if s[0] == c then 1 else 0) + Occurrences(s[1..], c)
  }

  /**
   * Python's `s.split(sep)` for a one-character separator: the pieces between
   * the separators, empty pieces included (`"".split(",") == [""]`).
   */
  function Split(s: string, sep: char): (r: seq<string>)
    ensures |r| == Occurrences(s, sep) + 1
    ensures forall k :: 0 <= k < |r| ==> sep !in r[k]
    ensures forall k, c :: 0 <= k < |r| && c in r[k] ==> c in s
  {
    if s == [] then [[]]
    else
      var rest := Split(s[1..], sep);
      assert forall k, c :: 0 <= k < |rest| && c in rest[k] ==> c in s by {
        assert s == [s[0]] + s[1..];
      }
      if s[0] == sep then [[]] + rest
      else
        assert forall c :: c in [s[0]] + rest[0] ==> c == s[0] || c in rest[0];
        [[s[0]] + rest[0]] + rest[1..]
  }

  /** Python's `sep.join(parts)`. */
  function Join(parts: seq<string>, sep: char): string
    requires |parts| >= 1
  {
    if |parts| == 1 then parts[0] else parts[0] + [sep] + Join(parts[1..], sep)
  }

  /** Splitting and joining again gives back the original string. */
  lemma {:induction false} JoinSplit(s: string, sep: char)
    ensures Join(Split(s, sep), sep) == s
  {
    if s != [] {
      JoinSplit(s[1..], sep);
      var rest := Split(s[1..], sep);
      if s[0] != sep && |rest| > 1 {
        assert Join(rest, sep) == rest[0] + [sep] + Join(rest[1..], sep);
      }
    }
  }

  /** Splitting at the first separator: the text before it, then the rest split. */
  lemma {:induction false} SplitFirst(a: string, rest: string, sep: char)
    requires sep !in a
    ensures Split(a + [sep] + rest, sep) == [a] + Split(rest, sep)
  {
    if a == [] {
      assert a + [sep] + rest == [sep] + rest;
      assert ([sep] + rest)[1..] == rest;
    } else {
      assert (a + [sep] + rest)[1..] == a[1..] + [sep] + rest;
      SplitFirst(a[1..], rest, sep);
      assert [a[0]] + a[1..] == a;
    }
  }

  /** A string with exactly one separator splits into the two sides of it. */
  lemma SplitAtOnly(a: string, b: string, sep: char)
    requires sep !in a && sep !in b
    ensures Split(a + [sep] + b, sep) == [a, b]
  {
    SplitFirst(a, b, sep);
    SplitNone(b, sep);
  }

  /** A string without the separator is one piece. */
  lemma {:induction false} SplitNone(s: string, sep: char)
    requires sep !in s
    ensures Split(s, sep) == [s]
  {
    if s != [] {
      assert sep !in s[1..];
      SplitNone(s[1..], sep);
      assert [s[0]] + s[1..] == s;
    }
  }

  predicate IsDigit(c: char) {
    '0' <= c <= '9'
  }

  predicate AllDigits(s: string) {
    forall k :: 0 <= k < |s| ==> IsDigit(s[k])
  }

  /** The value of a string of decimal digits, most significant first. */
  function DigitsValue(ds: string): nat
    requires AllDigits(ds)
  {
    if ds == [] then 0
    else 10 * DigitsValue(ds[..|ds| - 1]) + (ds[|ds| - 1] as int - '0' as int)
  }

  /**
   * A simplified Python `int(s)`: surrounding whitespace, an optional `+` or
   * `-` sign, then one or more ASCII digits (leading zeros allowed). Python
   * also accepts `_` between digits and non-ASCII decimal digits; this model
   * rejects both. `None` stands for the `ValueError` Python raises.
   */
  function ParseInt(s: string): (r: Option<int>)
    ensures r.Some? && '-' !in s ==> r.value >= 0
  {
    var t := Strip(s);
    StripFacts(s);
    if |t| > 0 && (t[0] == '+' || t[0] == '-') then
      var ds := t[1..];
      if ds != [] && AllDigits(ds) then
        var v: int := DigitsValue(ds);
        Some(if t[0] == '-' then -v else v)
      else None
    else if t != [] && AllDigits(t) then Some(DigitsValue(t))
    else None
  }

  /** The decimal rendering of `n`, as Python's `str(n)` gives it. */
  function Decimal(n: nat): (r: string)
    ensures |r| >= 1 && AllDigits(r)
  {
    if n < 10 then [('0' as int + n) as char]
    else Decimal(n / 10) + [('0' as int + n % 10) as char]
  }

  lemma {:induction false} DecimalValue(n: nat)
    ensures DigitsValue(Decimal(n)) == n
  {
    if n >= 10 {
      DecimalValue(n / 10);
      assert Decimal(n)[..|Decimal(n)| - 1] == Decimal(n / 10);
    }
  }

  /** `int(str(n)) == n` for every natural number `n`. */
  lemma ParseDecimal(n: nat)
    ensures ParseInt(Decimal(n)) == Some(n)
  {
    var d := Decimal(n);
    DecimalValue(n);
    assert IsDigit(d[0]) && IsDigit(d[|d| - 1]);
    StripNoOuterSpace(d);
    assert d[0] != '+' && d[0] != '-';
  }

  /** `int("-" + str(n)) == -n`: negative integers read back too. */
  lemma ParseNegativeDecimal(n: nat)
    ensures ParseInt(['-'] + Decimal(n)) == Some(-(n as int))
  {
    var d := ['-'] + Decimal(n);
    DecimalValue(n);
    assert d[1..] == Decimal(n);
    assert IsDigit(d[|d| - 1]);
    StripNoOuterSpace(d);
  }

  /** A string that neither starts nor ends with whitespace is its own strip. */
  lemma StripNoOuterSpace(s: string)
    requires |s| >= 1 && !IsSpace(s[0]) && !IsSpace(s[|s| - 1])
    ensures Strip(s) == s
  {
    assert TrimLeft(s) == s;
  }
}

=== FILE: wrappers.dfy ===
/** The optional value used wherever the source gets `None` or raises and recovers. */
module Wrappers {
  datatype Option<+T> = None | Some(value: T)
}
